=== FILE: README.md ===
# Babel Tower voice input: a Dafny model of its capture loop and outcome policy

Babel Tower records speech from the microphone, gates the recording with a voice
activity detector (VAD), sends the clip to a speech-to-text (STT) service, has a
text-generation service rewrite the transcript, and delivers the result to the clipboard
and the desktop notifications. This project models the parts of it that make decisions:

- `Capture` (capture.dfy): the VAD-gated capture loop `_record_speech_blocking`. It reads
  blocks of 512 samples, at most `int(60 * rate / 512)` of them. Before each read it
  checks the stop flag. It keeps channel 0 of each block and asks the detector for an
  event. It latches "speech started" on a start event, buffers every block from then on,
  and breaks on an end event. The result is `NoSpeechError` or the buffered blocks joined
  in arrival order. The microphone is a sequence of blocks. The detector is a total
  function from the history of mono blocks fed to it to an event (`NoEvent`, `Start`,
  `End`, or `StartEnd` for a reply holding both keys). The stop flag is `NeverSet` or
  `SetBefore(k)`. The loop appears twice: as a recursive function `Run`, and as the
  method `RecordSpeech`, which mirrors the source's `for` loop. Both are proved equal to
  a reference description stated with quantifiers over iteration indices.
- `Text` (text.dfy): the parts of Python's `str` the other modules use. These are the
  whitespace set shared by `split()` and `strip()`, word splitting, stripping, decimal
  rendering of an int, `sorted` on strings (code-point order) and `join`.
- `Processing` (processing.py in the source): automatic mode selection by word count,
  the prompt-file lookup `m.md`, and the handling of the service's reply (status check,
  first choice, strip).
- `Pipeline` (pipeline.py): how the recording, STT and processing outcomes of
  `run_pipeline` and `process_file` map to the returned text, the clipboard and the
  notifications. It keeps an ordered log of effects.
- `McpServer` (mcp_server.py): `set_mode` validation and update, and the notify/wait
  gating of `converse`.
- `Maybe` (option.dfy): `Option` for Python's `X | None` arguments.

## Model

| member | source | states |
|---|---|---|
| Capture.MaxChunks | app/babel_tower/audio.py:38 | the iteration budget is the largest n with n*512 <= 60*rate, and 0 for a rate that is not positive |
| Capture.Mono | app/babel_tower/audio.py:52 | the mono block has one sample per row, namely that row's channel 0 |
| Capture.Run | app/babel_tower/audio.py:46-65 | the loop never reads more than the budget. Once started it stays started, and the buffer only grows by extension. A first start always buffers a block. No read happens at or after the iteration the stop flag is set before |
| Capture.RunMatchesReference | app/babel_tower/audio.py:46-65 | the number of reads is the first point at which the budget is spent, the flag is set, or the previous block ended speech. "Started" holds iff a start occurred among those reads. The buffer is empty before the first start and is exactly blocks i..n-1 after a first start at i |
| Capture.Capture | app/babel_tower/audio.py:67-70 | the attempt ends in NoSpeech exactly when no start occurred among the blocks read, and a recorded clip carries the configured sample rate |
| Capture.CaptureCharacterized | app/babel_tower/audio.py:67-70 | NoSpeech iff no start occurred among the blocks read. Otherwise the clip is channel 0 of blocks from the first start to the last read, joined in order, at the configured rate |
| Capture.IterationBound | app/babel_tower/audio.py:46-48 | at most MaxChunks reads and none from the stop iteration on. Zero reads, a zero budget or a pre-set stop flag give NoSpeech |
| Capture.StartEndRange | app/babel_tower/audio.py:57-70 | first start at i and first end at j >= i give exactly blocks i..j after j+1 reads. With full blocks the clip has (j-i+1)*512 samples |
| Capture.EndBeforeStart | app/babel_tower/audio.py:63-68 | an end before any start stops the loop at once and the result is NoSpeech |
| Capture.NeverStartedNoSpeech | app/babel_tower/audio.py:67-68 | without a start event on any call the result is NoSpeech |
| Capture.GracefulCutoff | app/babel_tower/audio.py:67-74 | a start with no end before the duration limit or the stop flag returns the blocks from the first start to the cut-off, not an error |
| Capture.ClipFromChannel0 | app/babel_tower/audio.py:51-61 | sample r of block k of the clip, at offset (k-i)*512+r, is mic[k][r][0] |
| Capture.OnlyChannel0Matters | app/babel_tower/audio.py:51-55 | two streams that agree on channel 0 give the same result and the same number of reads |
| Capture.ConcatIndex | app/babel_tower/audio.py:70 | joining keeps arrival order: sample r of block b sits at offset b*width+r |
| Capture.StartTwoEndFive | tests/test_audio.py:117-133 | at 16000 Hz, a start on call 2 and an end on call 5 give 4*512 = 2048 samples after five reads |
| Capture.RecordSpeech | app/babel_tower/audio.py:35-70 | the imperative loop computes the same result and read count as the functional model |
| Text.IsSpaceMatchesList | app/babel_tower/processing.py:20 | the whitespace test shared by split() and strip() accepts exactly Python's 29 whitespace code points, listed one by one |
| Text.Strip | app/babel_tower/processing.py:67 | the result is a slice of the input with only whitespace cut off on either side, and it neither starts nor ends with whitespace |
| Text.StripIdempotent | app/babel_tower/processing.py:67 | stripping a stripped string changes nothing |
| Text.Words | app/babel_tower/processing.py:20 | every word that split() yields is non-empty and free of whitespace |
| Text.WordsOfWord | app/babel_tower/processing.py:20 | a single whitespace-free word splits into itself. Together with the next two rows this fixes split() and its word count on every string |
| Text.NoWordsIffAllSpace | app/babel_tower/processing.py:20 | split() yields no word exactly when the text is empty or all whitespace |
| Text.WordsAppend | app/babel_tower/processing.py:20 | the words of a + whitespace + b are the words of a followed by those of b |
| Text.IntToStringRoundTrip | app/babel_tower/processing.py:57 | the decimal rendering of a status code reads back as that code |
| Text.SortStrings | app/babel_tower/mcp_server.py:63 | sorted() returns the same strings in ascending code-point order |
| Text.Join | app/babel_tower/mcp_server.py:63 | ", ".join gives "" for no modes. Otherwise the result starts with the first mode, and its length is the total length plus one separator between neighbours |
| Text.JoinContains | app/babel_tower/mcp_server.py:63 | every joined string appears in the joined text |
| Text.JoinAt | app/babel_tower/mcp_server.py:63 | piece k of the join starts after the k pieces before it and k separators, with a separator right before it when k > 0. With the length this fixes every character |
| Text.Prefix | app/babel_tower/pipeline.py:37 | result[:100] is the text itself when it is at most 100 characters, otherwise its first 100 characters |
| Processing.SelectMode | app/babel_tower/processing.py:19-25 | an explicit mode is kept. Otherwise at most durchreichen_max_words words choose "durchreichen" and more choose the default mode |
| Processing.BlankTranscriptPassesThrough | app/babel_tower/processing.py:19-25 | an empty or whitespace-only transcript is passed through when the threshold is not negative |
| Processing.LongerTranscriptKeepsDefault | app/babel_tower/processing.py:20-24 | a transcript that gets the default mode keeps it when more speech is appended |
| Processing.LoadPrompt | app/babel_tower/processing.py:31-35 | the prompt is found iff m.md is in the prompt directory, and is its contents. Otherwise a ProcessingError whose message starts "Unknown mode: " |
| Processing.UnknownModeNamesMode | app/babel_tower/processing.py:34 | the unknown-mode message ends with the mode that was asked for |
| Processing.ReadReply | app/babel_tower/processing.py:48-67 | a connection failure or timeout is a ProcessingError with its fixed message, and a non-200 status is a ProcessingError. Another transport error, an undecodable body or an empty choice list is an exception that is not a ProcessingError. Success needs status 200 and yields text without surrounding whitespace |
| Processing.StatusInMessage | app/babel_tower/processing.py:56-57 | a non-200 reply's message carries the status code, right after "LLM returned ", as the same number |
| Processing.ReplyIsStrippedContent | app/babel_tower/processing.py:59-67 | the returned text is the first choice's content with leading and trailing whitespace cut, and is a fixed point of strip |
| Processing.ProcessTranscript | app/babel_tower/processing.py:19-28 | a missing prompt fails with "Unknown mode: m" before any request. Otherwise the request carries the prompt and the transcript, and the result is the reply's reading |
| Processing.UnknownExplicitModeSendsNothing | app/babel_tower/processing.py:27-34 | an explicit mode without a prompt file fails with its name and sends no request |
| Pipeline.RunPipeline | app/babel_tower/pipeline.py:15-16 | NoSpeechError from recording propagates after the first notification only |
| Pipeline.ProcessFile | app/babel_tower/pipeline.py:53-72 | an STT error returns "[STT-Fehler: e]" after exactly one critical "STT-Fehler: e" notice, and an empty transcript returns "" after one low-urgency notice. With a transcript, processing is called first with no notice before it. A successful result is returned and copied, and a ProcessingError returns and copies the raw transcript. The last notification previews the returned text. Any other transcription failure propagates with no effect |
| Pipeline.Deliver | app/babel_tower/pipeline.py:19-39 | the shared delivery policy raises exactly when transcription fails with an exception other than STTError, or when processing a non-empty transcript fails with one other than ProcessingError. A successful processing result is the text returned. Every returned text ends with a notification |
| Pipeline.DeliverPolicy | app/babel_tower/pipeline.py:19-39 | an STT error returns "[STT-Fehler: e]" after exactly one critical "STT-Fehler: e" notice. An empty transcript returns "". In both cases nothing is processed or copied. Otherwise processing is called once with the transcript and the mode unchanged. A successful result is returned as it is. A ProcessingError returns the raw transcript, and the fallback notice comes right before its copy. The returned text is the one copied, once, and the last notification shows its first 100 characters |
| Pipeline.RunPipelinePolicy | app/babel_tower/pipeline.py:15-39 | after a recording, run_pipeline's effects are the two opening notices followed by exactly those of the shared policy. So its outcome, notifications, copies and processing calls are the policy's. Without speech it copies and processes nothing |
| Pipeline.SuccessfulRunNotifiesFourTimes | app/babel_tower/pipeline.py:15-37 | a fully successful run sends exactly four notifications, all titled "Babel Tower" |
| Pipeline.UnknownModeFallsBack | app/babel_tower/pipeline.py:30-39 | with a mode that has no prompt file, the raw transcript is returned and copied |
| McpServer.SetMode | app/babel_tower/mcp_server.py:61-65 | a valid mode replaces default_mode only and is confirmed. Any other string, "" included, changes nothing and is answered with the valid modes listed |
| McpServer.RejectionListsSortedModes | app/babel_tower/mcp_server.py:63 | the rejection lists every valid mode once, in ascending order |
| McpServer.RejectionNamesEveryMode | app/babel_tower/mcp_server.py:62-63 | the answer to an unknown mode names every valid mode |
| McpServer.RejectionListsModesInOrder | app/babel_tower/mcp_server.py:63 | in the rejection text, the k-th mode in ascending order comes after the fixed text, the k modes before it and k separators ", ", with a separator right before it |
| McpServer.SetModeIdempotent | app/babel_tower/mcp_server.py:61-65 | setting the same mode twice equals setting it once |
| McpServer.SetModeGovernsAutoSelection | app/babel_tower/mcp_server.py:64 | after a successful set_mode(m), long transcripts are processed with m. After a rejected one, the earlier default stays |
| McpServer.Converse | app/babel_tower/mcp_server.py:46-50 | a non-empty message is shown first and only once, and an empty or absent one shows nothing. Not waiting returns "" and invokes no pipeline. Waiting invokes the pipeline exactly once, last, with the mode as given, and returns its outcome |

## Left out

- Loading the Silero model, the float normalisation `/ 32768.0` and the detector's inner
  workings are left out. The detector is an abstract function of the mono blocks fed to
  it, so its thresholds and silence duration are not modelled.
- WAV encoding of the clip and the `asyncio.to_thread` wrapper are left out (library I/O
  and threading). The clip is the joined int16 sample sequence plus the sample rate.
- Opening and closing the input device, and device or detector errors, are left out. They
  propagate unchanged in the source. The input stream is modelled as always delivering a
  block, so the stream must hold at least the iteration budget.
- Capture.MaxChunks: computed with exact integers. The source divides in floating point,
  which agrees for every rate below 2^53 / 60.
- Capture.Mono: requires every row to have a channel 0. The source would raise an
  IndexError on a stream with no channels, which the device does not allow.
- The HTTP exchanges of transcription, processing and speech output are not modelled.
  Each is an abstract outcome:
  - Transcription gives a transcript, an `STTError` with its message, or another
    exception (stt.py:22-33). Examples of the last are a transport error other than a
    connection failure or a timeout, or a body that is not JSON.
  - The LLM reply is a connection failure, a timeout, another transport error, a body that
    does not decode, or a status, body text and choice contents.
- Processing.ReadReply: the exceptions that are not ProcessingError are one failure value.
  They are another transport error, a body that is not JSON, JSON lacking `choices`,
  `message` or a string `content`, and an empty choice list. Their exception types and
  messages are not modelled; no caller catches them.
- Processing.LoadPrompt: the prompt directory is a map from file name to contents.
  Path semantics are not modelled (a mode holding `/` naming a sub-directory).
- `get_available_modes`, the `_formatting.md` prefix and the transcript wrapping that some
  tests describe are not in the modelled source. The valid modes are an input given as a
  duplicate-free sequence, standing for the set the source receives.
- McpServer.Converse: mcp_server.py:50 passes `clipboard=False`, a keyword that
  `run_pipeline` (pipeline.py:8-11) does not accept. As written, the waiting branch
  therefore raises TypeError on every call. The model makes the call without that keyword,
  and the pipeline's result is an abstract outcome.
- Speech output in `converse`, the `body[:200]` cut inside `notify`, and the shell-outs
  for clipboard and notifications are left out. Notifications and copies are entries of
  the effect log.
- Reading the audio file in `process_file` is left out. Its transcription outcome is an
  input.
- The daemon loop, the command-line wiring, environment-based configuration and the
  speech output client are left out. They are concurrency, wiring or I/O. The
  configuration fields used are parameters.
- A `NoSpeechError` from recording propagates out of `run_pipeline`, as the code is
  written. tests/test_pipeline.py:159-173 expects an empty return instead. The model
  follows the code.

=== FILE: capture.dfy ===
/** The voice-activity-gated capture loop of the recorder (`_record_speech_blocking`).

    The microphone is a sequence of blocks read in order; each block is a sequence of
    rows in time order and each row holds one int16 sample per channel. The voice
    activity detector is stateful, so it is modelled as a total function from the
    history of mono blocks it has been fed to the event it reports for the last one.
    The stop flag is either never set or observed set from some iteration on.
 */
module Capture {

  /** Samples per block read from the input stream. */
  const ChunkSize: nat := 512

  /** Longest recording, in seconds. */
  const MaxRecordSeconds: nat := 60

  type Int16 = x: int | -0x8000 <= x < 0x8000

  /** One sample per channel. */
  type Row = seq<Int16>

  /** Rows in time order, as returned by one read of the input stream. */
  type Block = seq<Row>

  /** Channel 0 of a block. */
  type MonoBlock = seq<Int16>

  /** What the detector reports for one block: nothing, a start of speech, an end of
      speech, or (a dictionary holding both keys) a start and an end at once. */
  datatype VadEvent = NoEvent | Start | End | StartEnd {
    predicate HasStart() { this == Start || this == StartEnd }
    predicate HasEnd() { this == End || this == StartEnd }
  }

  /** The detector's answer for the last block of the history it has been fed. */
  type Detector = seq<MonoBlock> -> VadEvent

  /** The optional stop event: never set, or set before iteration `iteration` is checked. */
  datatype StopFlag = NeverSet | SetBefore(iteration: nat) {
    predicate IsSetAt(k: nat) { SetBefore? && iteration <= k }
  }

  /** Loop state: the buffered mono blocks, the latched start flag, whether an end was
      seen, and the number of blocks read so far. */
  datatype Session = Session(buffer: seq<MonoBlock>, started: bool, ended: bool, blocksRead: nat)

  const Fresh: Session := Session([], false, false, 0)

  /** A finished clip: the concatenated samples and the rate they were written at. */
  datatype Clip = Clip(samples: seq<Int16>, sampleRate: int)

  /** What one recording attempt produces: a clip, or `NoSpeechError`. */
  datatype CaptureResult = Recorded(clip: Clip) | NoSpeech

  /** Number of loop iterations: Python's `int(60 * rate / 512)`, where a rate that is not
      positive gives an empty range. */
  function MaxChunks(sampleRate: int): (n: nat)
    ensures sampleRate <= 0 ==> n == 0
    ensures sampleRate > 0 ==>
      n * ChunkSize <= MaxRecordSeconds * sampleRate < (n + 1) * ChunkSize
  {
    if sampleRate <= 0 then 0 else (MaxRecordSeconds * sampleRate) / ChunkSize
  }

  predicate HasChannel0(b: Block) {
    forall r :: 0 <= r < |b| ==> |b[r]| > 0
  }

  predicate AllHaveChannel0(mic: seq<Block>) {
    forall k :: 0 <= k < |mic| ==> HasChannel0(mic[k])
  }

  /** Channel 0 of every row of a block (`chunk_int16[:, 0]`). */
  function Mono(b: Block): (m: MonoBlock)
    requires HasChannel0(b)
    ensures |m| == |b|
    ensures forall r :: 0 <= r < |b| ==> m[r] == b[r][0]
  {
    seq(|b|, r requires 0 <= r < |b| => b[r][0])
  }

  function MonoAll(mic: seq<Block>): (ms: seq<MonoBlock>)
    requires AllHaveChannel0(mic)
    ensures |ms| == |mic|
    ensures forall k :: 0 <= k < |mic| ==> ms[k] == Mono(mic[k])
  {
    seq(|mic|, k requires 0 <= k < |mic| => Mono(mic[k]))
  }

  /** All blocks joined in order (`np.concatenate`). */
  function Concat<T>(bs: seq<seq<T>>): seq<T> {
    if |bs| == 0 then [] else Concat(bs[..|bs| - 1]) + bs[|bs| - 1]
  }

  /** The event the detector reports on its (k+1)-th call, having been fed channel 0 of
      blocks 0..k. */
  function EventAt(mic: seq<Block>, det: Detector, k: nat): VadEvent
    requires k < |mic| && AllHaveChannel0(mic)
  {
    det(MonoAll(mic[..k + 1]))
  }

  /** The loop from the state `s` on: check the stop flag, read a block, keep channel 0,
      ask the detector, latch the start, buffer when started, break on an end. */
  function Run(mic: seq<Block>, det: Detector, stop: StopFlag, maxChunks: nat, s: Session): (r: Session)
    requires s.blocksRead <= maxChunks <= |mic| && AllHaveChannel0(mic)
    ensures s.blocksRead <= r.blocksRead <= maxChunks
    ensures s.started ==> r.started && s.buffer <= r.buffer
    ensures r.started && !s.started ==> |r.buffer| > |s.buffer|
    ensures stop.SetBefore? ==> r.blocksRead <= stop.iteration || r.blocksRead == s.blocksRead
    ensures r.blocksRead == s.blocksRead ==> r == s
    decreases maxChunks - s.blocksRead
  {
    var k := s.blocksRead;
    if k == maxChunks || stop.IsSetAt(k) then s
    else
      var mono := Mono(mic[k]);
      var ev := det(MonoAll(mic[..k + 1]));
      var started := s.started || ev.HasStart();
      var buffer := if started then s.buffer + [mono] else s.buffer;
      var next := Session(buffer, started, ev.HasEnd(), k + 1);
      if ev.HasEnd() then next else Run(mic, det, stop, maxChunks, next)
  }

  /** One recording attempt with the stream and detector given as inputs. */
  function Capture(sampleRate: int, stop: StopFlag, mic: seq<Block>, det: Detector): (r: CaptureResult)
    requires MaxChunks(sampleRate) <= |mic| && AllHaveChannel0(mic)
    ensures r.NoSpeech? <==> !StartedBefore(mic, det, Run(mic, det, stop, MaxChunks(sampleRate), Fresh).blocksRead)
    ensures r.Recorded? ==> r.clip.sampleRate == sampleRate
  {
    RunMatchesReference(mic, det, stop, MaxChunks(sampleRate), Fresh);
    var s := Run(mic, det, stop, MaxChunks(sampleRate), Fresh);
    if !s.started || |s.buffer| == 0 then NoSpeech
    else Recorded(Clip(Concat(s.buffer), sampleRate))
  }

  /** Number of blocks the loop reads in a whole attempt. */
  function Reads(sampleRate: int, stop: StopFlag, mic: seq<Block>, det: Detector): nat
    requires MaxChunks(sampleRate) <= |mic| && AllHaveChannel0(mic)
  {
    Run(mic, det, stop, MaxChunks(sampleRate), Fresh).blocksRead
  }

  // ---------------------------------------------------------------------------
  // Reference description of the loop, by quantifiers over iteration indices.

  /** The loop does not start iteration `n`: the budget is spent, the stop flag is set,
      or the previous block carried an end. */
  ghost predicate Halts(mic: seq<Block>, det: Detector, stop: StopFlag, maxChunks: nat, n: nat)
    requires maxChunks <= |mic| && AllHaveChannel0(mic)
  {
    n == maxChunks || stop.IsSetAt(n) || (0 < n <= maxChunks && EventAt(mic, det, n - 1).HasEnd())
  }

  /** `n` is the first point at which the loop halts, i.e. the number of blocks read. */
  ghost predicate IsReadCount(mic: seq<Block>, det: Detector, stop: StopFlag, maxChunks: nat, n: nat)
    requires maxChunks <= |mic| && AllHaveChannel0(mic)
  {
    n <= maxChunks && Halts(mic, det, stop, maxChunks, n)
    && forall m :: 0 <= m < n ==> !Halts(mic, det, stop, maxChunks, m)
  }

  ghost predicate StartedBefore(mic: seq<Block>, det: Detector, n: nat)
    requires n <= |mic| && AllHaveChannel0(mic)
  {
    exists j :: 0 <= j < n && EventAt(mic, det, j).HasStart()
  }

  /** Call `i` carries the first start of speech. */
  ghost predicate IsFirstStart(mic: seq<Block>, det: Detector, i: nat)
    requires i < |mic| && AllHaveChannel0(mic)
  {
    EventAt(mic, det, i).HasStart() && !StartedBefore(mic, det, i)
  }

  /** The loop invariant of `Run` stated against the reference description. */
  ghost predicate Consistent(mic: seq<Block>, det: Detector, stop: StopFlag, maxChunks: nat, s: Session)
    requires maxChunks <= |mic| && AllHaveChannel0(mic)
  {
    && s.blocksRead <= maxChunks
    && !s.ended
    && (forall m :: 0 <= m < s.blocksRead ==> !Halts(mic, det, stop, maxChunks, m))
    && (0 < s.blocksRead ==> !EventAt(mic, det, s.blocksRead - 1).HasEnd())
    && s.started == StartedBefore(mic, det, s.blocksRead)
    && (!s.started ==> s.buffer == [])
    && (forall i :: 0 <= i < s.blocksRead && IsFirstStart(mic, det, i) ==> s.buffer == MonoAll(mic[i..s.blocksRead]))
  }

  // ---------------------------------------------------------------------------
  // Sequence facts used below.

  lemma MonoAllSnoc(mic: seq<Block>, i: nat, k: nat)
    requires i <= k < |mic| && AllHaveChannel0(mic)
    ensures MonoAll(mic[i..k + 1]) == MonoAll(mic[i..k]) + [Mono(mic[k])]
  {
    var lhs := MonoAll(mic[i..k + 1]);
    var rhs := MonoAll(mic[i..k]) + [Mono(mic[k])];
    assert |lhs| == |rhs|;
    forall t | 0 <= t < |lhs| ensures lhs[t] == rhs[t] {
      assert mic[i..k + 1][t] == mic[i + t];
      if t < k - i {
        assert mic[i..k][t] == mic[i + t];
      }
    }
  }

  lemma MonoAllPrefix(mic: seq<Block>, m: nat, n: nat)
    requires m <= n <= |mic| && AllHaveChannel0(mic)
    ensures MonoAll(mic[..n])[..m] == MonoAll(mic[..m])
  {
    var lhs := MonoAll(mic[..n])[..m];
    var rhs := MonoAll(mic[..m]);
    assert |lhs| == |rhs|;
    forall t | 0 <= t < m ensures lhs[t] == rhs[t] {
      assert mic[..n][t] == mic[t] == mic[..m][t];
    }
  }

  /** Joining blocks of `width` samples each gives `width` samples per block. */
  lemma {:induction false} ConcatLength<T>(bs: seq<seq<T>>, width: nat)
    requires forall b :: 0 <= b < |bs| ==> |bs[b]| == width
    ensures |Concat(bs)| == |bs| * width
  {
    if |bs| > 0 {
      ConcatLength(bs[..|bs| - 1], width);
    }
  }

  /** Sample `r` of block `b` sits at offset `b * width + r` of the joined sequence:
      concatenation keeps arrival order. */
  lemma {:induction false} ConcatIndex<T>(bs: seq<seq<T>>, width: nat, b: nat, r: nat)
    requires forall c :: 0 <= c < |bs| ==> |bs[c]| == width
    requires b < |bs| && r < width
    ensures b * width + r < |Concat(bs)|
    ensures Concat(bs)[b * width + r] == bs[b][r]
  {
    var init := bs[..|bs| - 1];
    ConcatLength(init, width);
    ConcatLength(bs, width);
    if b < |bs| - 1 {
      ConcatIndex(init, width, b, r);
    } else {
      assert b * width == |init| * width;
    }
  }

  // ---------------------------------------------------------------------------
  // The loop agrees with its reference description.

  lemma {:induction false} RunMatchesReference(mic: seq<Block>, det: Detector, stop: StopFlag, maxChunks: nat, s: Session)
    requires s.blocksRead <= maxChunks <= |mic| && AllHaveChannel0(mic)
    requires Consistent(mic, det, stop, maxChunks, s)
    ensures var r := Run(mic, det, stop, maxChunks, s);
      && IsReadCount(mic, det, stop, maxChunks, r.blocksRead)
      && r.started == StartedBefore(mic, det, r.blocksRead)
      && (!r.started ==> r.buffer == [])
      && (forall i :: 0 <= i < r.blocksRead && IsFirstStart(mic, det, i) ==> r.buffer == MonoAll(mic[i..r.blocksRead]))
    decreases maxChunks - s.blocksRead
  {
    var k := s.blocksRead;
    if k == maxChunks || stop.IsSetAt(k) {
      assert Halts(mic, det, stop, maxChunks, k);
    } else {
      var mono := Mono(mic[k]);
      var ev := EventAt(mic, det, k);
      var started := s.started || ev.HasStart();
      var buffer := if started then s.buffer + [mono] else s.buffer;
      var next := Session(buffer, started, false, k + 1);
      StartedStep(mic, det, k);
      forall i | 0 <= i < k + 1 && IsFirstStart(mic, det, i)
        ensures buffer == MonoAll(mic[i..k + 1])
      {
        MonoAllSnoc(mic, i, k);
        if i == k {
          assert !s.started;
          assert mic[k..k] == [];
        }
      }
      forall m | 0 <= m < k + 1 ensures !Halts(mic, det, stop, maxChunks, m) {
        if m == k {
          assert !stop.IsSetAt(k);
        }
      }
      if ev.HasEnd() {
        assert Halts(mic, det, stop, maxChunks, k + 1);
      } else {
        assert Consistent(mic, det, stop, maxChunks, next);
        RunMatchesReference(mic, det, stop, maxChunks, next);
      }
    }
  }

  /** A start has occurred among the first `k + 1` calls iff it occurred among the first
      `k` or on call `k`. */
  lemma StartedStep(mic: seq<Block>, det: Detector, k: nat)
    requires k < |mic| && AllHaveChannel0(mic)
    ensures StartedBefore(mic, det, k + 1) <==> StartedBefore(mic, det, k) || EventAt(mic, det, k).HasStart()
  {
    if StartedBefore(mic, det, k + 1) && !EventAt(mic, det, k).HasStart() {
      var j :| 0 <= j < k + 1 && EventAt(mic, det, j).HasStart();
      assert j < k;
    }
  }

  lemma ReadCountUnique(mic: seq<Block>, det: Detector, stop: StopFlag, maxChunks: nat, n1: nat, n2: nat)
    requires maxChunks <= |mic| && AllHaveChannel0(mic)
    requires IsReadCount(mic, det, stop, maxChunks, n1)
    requires IsReadCount(mic, det, stop, maxChunks, n2)
    ensures n1 == n2
  {
  }

  lemma {:induction false} FirstStartExists(mic: seq<Block>, det: Detector, n: nat)
    requires n <= |mic| && AllHaveChannel0(mic)
    requires StartedBefore(mic, det, n)
    ensures exists i :: 0 <= i < n && IsFirstStart(mic, det, i)
  {
    if StartedBefore(mic, det, n - 1) {
      FirstStartExists(mic, det, n - 1);
      var i :| 0 <= i < n - 1 && IsFirstStart(mic, det, i);
      assert IsFirstStart(mic, det, i);
    } else {
      var j :| 0 <= j < n && EventAt(mic, det, j).HasStart();
      assert j == n - 1;
      assert IsFirstStart(mic, det, n - 1);
    }
  }

  /** The whole attempt, against the reference description: if `n` is the point at which
      the loop halts, the attempt reads `n` blocks and returns NoSpeech when none of them
      carried a start, and otherwise channel 0 of blocks `i..n-1`, joined in order, where
      `i` is the first start. */
  lemma CaptureCharacterized(sampleRate: int, stop: StopFlag, mic: seq<Block>, det: Detector, n: nat)
    requires MaxChunks(sampleRate) <= |mic| && AllHaveChannel0(mic)
    requires IsReadCount(mic, det, stop, MaxChunks(sampleRate), n)
    ensures Reads(sampleRate, stop, mic, det) == n
    ensures !StartedBefore(mic, det, n) <==> Capture(sampleRate, stop, mic, det) == NoSpeech
    ensures forall i :: 0 <= i < n && IsFirstStart(mic, det, i) ==>
      Capture(sampleRate, stop, mic, det) == Recorded(Clip(Concat(MonoAll(mic[i..n])), sampleRate))
  {
    var maxChunks := MaxChunks(sampleRate);
    RunMatchesReference(mic, det, stop, maxChunks, Fresh);
    var r := Run(mic, det, stop, maxChunks, Fresh);
    ReadCountUnique(mic, det, stop, maxChunks, r.blocksRead, n);
    if StartedBefore(mic, det, n) {
      FirstStartExists(mic, det, n);
      var i :| 0 <= i < n && IsFirstStart(mic, det, i);
      assert |r.buffer| == n - i;
    }
  }

  // ---------------------------------------------------------------------------
  // Consequences for callers.

  /** The loop reads at most `MaxChunks(sampleRate)` blocks and none at or after the
      iteration before which the stop flag is set; when it reads nothing there is no
      speech, so a zero budget or a flag set before the first iteration means NoSpeech. */
  lemma IterationBound(sampleRate: int, stop: StopFlag, mic: seq<Block>, det: Detector)
    requires MaxChunks(sampleRate) <= |mic| && AllHaveChannel0(mic)
    ensures Reads(sampleRate, stop, mic, det) <= MaxChunks(sampleRate)
    ensures stop.SetBefore? ==> Reads(sampleRate, stop, mic, det) <= stop.iteration
    ensures Reads(sampleRate, stop, mic, det) == 0 ==> Capture(sampleRate, stop, mic, det) == NoSpeech
    ensures MaxChunks(sampleRate) == 0 || stop == SetBefore(0) ==> Capture(sampleRate, stop, mic, det) == NoSpeech
  {
  }

  /** If the first start is on call `i` and the first end on call `j >= i`, with the stop
      flag not set by then, the clip is channel 0 of blocks `i..j` in order; with full
      blocks it holds `(j - i + 1) * 512` samples. */
  lemma StartEndRange(sampleRate: int, stop: StopFlag, mic: seq<Block>, det: Detector, i: nat, j: nat)
    requires MaxChunks(sampleRate) <= |mic| && AllHaveChannel0(mic)
    requires i <= j < MaxChunks(sampleRate)
    requires IsFirstStart(mic, det, i)
    requires EventAt(mic, det, j).HasEnd()
    requires forall m :: 0 <= m < j ==> !EventAt(mic, det, m).HasEnd()
    requires !stop.IsSetAt(j)
    ensures Reads(sampleRate, stop, mic, det) == j + 1
    ensures Capture(sampleRate, stop, mic, det) == Recorded(Clip(Concat(MonoAll(mic[i..j + 1])), sampleRate))
    ensures (forall k :: i <= k <= j ==> |mic[k]| == ChunkSize) ==>
      |Capture(sampleRate, stop, mic, det).clip.samples| == (j - i + 1) * ChunkSize
  {
    var maxChunks := MaxChunks(sampleRate);
    forall m | 0 <= m < j + 1 ensures !Halts(mic, det, stop, maxChunks, m) {
      assert !stop.IsSetAt(m);
    }
    assert IsReadCount(mic, det, stop, maxChunks, j + 1);
    CaptureCharacterized(sampleRate, stop, mic, det, j + 1);
    if forall k :: i <= k <= j ==> |mic[k]| == ChunkSize {
      var bs := MonoAll(mic[i..j + 1]);
      forall b | 0 <= b < |bs| ensures |bs[b]| == ChunkSize {
        assert mic[i..j + 1][b] == mic[i + b];
      }
      ConcatLength(bs, ChunkSize);
    }
  }

  /** An end stops the loop even before any start; the buffer is then empty and the
      attempt fails with NoSpeech after `j + 1` reads. */
  lemma EndBeforeStart(sampleRate: int, stop: StopFlag, mic: seq<Block>, det: Detector, j: nat)
    requires MaxChunks(sampleRate) <= |mic| && AllHaveChannel0(mic)
    requires j < MaxChunks(sampleRate)
    requires EventAt(mic, det, j).HasEnd()
    requires forall m :: 0 <= m < j ==> !EventAt(mic, det, m).HasEnd()
    requires !StartedBefore(mic, det, j + 1)
    requires !stop.IsSetAt(j)
    ensures Reads(sampleRate, stop, mic, det) == j + 1
    ensures Capture(sampleRate, stop, mic, det) == NoSpeech
  {
    var maxChunks := MaxChunks(sampleRate);
    forall m | 0 <= m < j + 1 ensures !Halts(mic, det, stop, maxChunks, m) {
      assert !stop.IsSetAt(m);
    }
    assert IsReadCount(mic, det, stop, maxChunks, j + 1);
    CaptureCharacterized(sampleRate, stop, mic, det, j + 1);
  }

  /** Without a start on any call the attempt fails with NoSpeech. */
  lemma NeverStartedNoSpeech(sampleRate: int, stop: StopFlag, mic: seq<Block>, det: Detector)
    requires MaxChunks(sampleRate) <= |mic| && AllHaveChannel0(mic)
    requires forall k :: 0 <= k < MaxChunks(sampleRate) ==> !EventAt(mic, det, k).HasStart()
    ensures Capture(sampleRate, stop, mic, det) == NoSpeech
  {
    var maxChunks := MaxChunks(sampleRate);
    RunMatchesReference(mic, det, stop, maxChunks, Fresh);
  }

  /** A start with no end before the loop is cut off, by the duration limit or by the stop
      flag, is not an error: the blocks from the first start to the cut-off are returned. */
  lemma GracefulCutoff(sampleRate: int, stop: StopFlag, mic: seq<Block>, det: Detector, i: nat, n: nat)
    requires MaxChunks(sampleRate) <= |mic| && AllHaveChannel0(mic)
    requires i < n <= MaxChunks(sampleRate)
    requires IsFirstStart(mic, det, i)
    requires forall m :: 0 <= m < n ==> !EventAt(mic, det, m).HasEnd()
    requires
      || (n == MaxChunks(sampleRate) && (stop == NeverSet || stop.iteration >= n))
      || stop == SetBefore(n)
    ensures Reads(sampleRate, stop, mic, det) == n
    ensures Capture(sampleRate, stop, mic, det) == Recorded(Clip(Concat(MonoAll(mic[i..n])), sampleRate))
  {
    var maxChunks := MaxChunks(sampleRate);
    assert Halts(mic, det, stop, maxChunks, n);
    assert IsReadCount(mic, det, stop, maxChunks, n);
    CaptureCharacterized(sampleRate, stop, mic, det, n);
  }

  /** Each stored sample is channel 0 of one row: with full blocks, sample `r` of block
      `k` (for `k` from the first start `i` up to the cut-off `n`) sits at offset
      `(k - i) * 512 + r` of the clip and equals `mic[k][r][0]`. */
  lemma ClipFromChannel0(sampleRate: int, stop: StopFlag, mic: seq<Block>, det: Detector, i: nat, n: nat)
    requires MaxChunks(sampleRate) <= |mic| && AllHaveChannel0(mic)
    requires IsReadCount(mic, det, stop, MaxChunks(sampleRate), n)
    requires i < n && IsFirstStart(mic, det, i)
    requires forall k :: i <= k < n ==> |mic[k]| == ChunkSize
    ensures Capture(sampleRate, stop, mic, det).Recorded?
    ensures var samples := Capture(sampleRate, stop, mic, det).clip.samples;
      |samples| == (n - i) * ChunkSize
      && forall k, r :: i <= k < n && 0 <= r < ChunkSize ==> samples[(k - i) * ChunkSize + r] == mic[k][r][0]
  {
    CaptureCharacterized(sampleRate, stop, mic, det, n);
    JoinedChannel0(mic, i, n);
  }

  /** Channel 0 of full blocks `i..n-1`, joined: sample `r` of block `k` sits at offset
      `(k - i) * 512 + r`. */
  lemma JoinedChannel0(mic: seq<Block>, i: nat, n: nat)
    requires i <= n <= |mic| && AllHaveChannel0(mic)
    requires forall k :: i <= k < n ==> |mic[k]| == ChunkSize
    ensures var samples := Concat(MonoAll(mic[i..n]));
      |samples| == (n - i) * ChunkSize
      && forall k, r :: i <= k < n && 0 <= r < ChunkSize ==> samples[(k - i) * ChunkSize + r] == mic[k][r][0]
  {
    var bs := MonoAll(mic[i..n]);
    forall c | 0 <= c < |bs| ensures |bs[c]| == ChunkSize {
      assert mic[i..n][c] == mic[i + c];
    }
    var samples := Concat(bs);
    ConcatLength(bs, ChunkSize);
    forall k, r | i <= k < n && 0 <= r < ChunkSize
      ensures samples[(k - i) * ChunkSize + r] == mic[k][r][0]
    {
      ConcatIndex(bs, ChunkSize, k - i, r);
      assert mic[i..n][k - i] == mic[k];
    }
  }

  lemma {:induction false} RunSameMono(mic1: seq<Block>, mic2: seq<Block>, det: Detector, stop: StopFlag, maxChunks: nat, s: Session)
    requires s.blocksRead <= maxChunks <= |mic1| && AllHaveChannel0(mic1)
    requires maxChunks <= |mic2| && AllHaveChannel0(mic2)
    requires MonoAll(mic1[..maxChunks]) == MonoAll(mic2[..maxChunks])
    ensures Run(mic1, det, stop, maxChunks, s) == Run(mic2, det, stop, maxChunks, s)
    decreases maxChunks - s.blocksRead
  {
    var k := s.blocksRead;
    if k < maxChunks && !stop.IsSetAt(k) {
      MonoAllPrefix(mic1, k + 1, maxChunks);
      MonoAllPrefix(mic2, k + 1, maxChunks);
      assert mic1[..maxChunks][k] == mic1[k] && mic2[..maxChunks][k] == mic2[k];
      assert Mono(mic1[k]) == MonoAll(mic1[..maxChunks])[k];
      var ev := det(MonoAll(mic1[..k + 1]));
      var started := s.started || ev.HasStart();
      var buffer := if started then s.buffer + [Mono(mic1[k])] else s.buffer;
      RunSameMono(mic1, mic2, det, stop, maxChunks, Session(buffer, started, ev.HasEnd(), k + 1));
    }
  }

  /** Only channel 0 matters: two streams whose blocks agree on channel 0 give the same
      result, whatever the other channels hold. */
  lemma OnlyChannel0Matters(sampleRate: int, stop: StopFlag, mic1: seq<Block>, mic2: seq<Block>, det: Detector)
    requires MaxChunks(sampleRate) <= |mic1| && AllHaveChannel0(mic1)
    requires MaxChunks(sampleRate) <= |mic2| && AllHaveChannel0(mic2)
    requires forall k :: 0 <= k < MaxChunks(sampleRate) ==> Mono(mic1[k]) == Mono(mic2[k])
    ensures Capture(sampleRate, stop, mic1, det) == Capture(sampleRate, stop, mic2, det)
    ensures Reads(sampleRate, stop, mic1, det) == Reads(sampleRate, stop, mic2, det)
  {
    var maxChunks := MaxChunks(sampleRate);
    var a := MonoAll(mic1[..maxChunks]);
    var b := MonoAll(mic2[..maxChunks]);
    forall k | 0 <= k < maxChunks ensures a[k] == b[k] {
      assert mic1[..maxChunks][k] == mic1[k] && mic2[..maxChunks][k] == mic2[k];
    }
    RunSameMono(mic1, mic2, det, stop, maxChunks, Fresh);
  }

  /** The detector double of the recorder's tests: a start on call `startAt` and an end on
      call `endAt` (calls counted from 1), nothing otherwise. */
  function CountingDetector(startAt: nat, endAt: nat): Detector {
    (fed: seq<MonoBlock>) => if |fed| == startAt then Start else if |fed| == endAt then End else NoEvent
  }

  /** At 16000 Hz with a start on call 2 and an end on call 5, the clip is blocks 1..4
      (four blocks, 2048 samples) after five reads. */
  lemma StartTwoEndFive(mic: seq<Block>)
    requires MaxChunks(16000) <= |mic| && AllHaveChannel0(mic)
    requires forall k :: 0 <= k < |mic| ==> |mic[k]| == ChunkSize
    ensures Reads(16000, NeverSet, mic, CountingDetector(2, 5)) == 5
    ensures Capture(16000, NeverSet, mic, CountingDetector(2, 5)).Recorded?
    ensures |Capture(16000, NeverSet, mic, CountingDetector(2, 5)).clip.samples| == 4 * ChunkSize
  {
    var det := CountingDetector(2, 5);
    assert MaxChunks(16000) == 1875;
    forall m | 0 <= m < 5 ensures EventAt(mic, det, m) == [NoEvent, Start, NoEvent, NoEvent, End][m] {
      assert |MonoAll(mic[..m + 1])| == m + 1;
    }
    assert !StartedBefore(mic, det, 1);
    StartEndRange(16000, NeverSet, mic, det, 1, 4);
  }

  /** The recorder's `for` loop, step by step: a bounded loop with a stop check, a latched
      start flag, a growing buffer and a break on an end. */
  method RecordSpeech(sampleRate: int, stop: StopFlag, mic: seq<Block>, det: Detector)
    returns (result: CaptureResult, blocksRead: nat)
    requires MaxChunks(sampleRate) <= |mic| && AllHaveChannel0(mic)
    ensures result == Capture(sampleRate, stop, mic, det)
    ensures blocksRead == Reads(sampleRate, stop, mic, det)
  {
    var maxChunks := MaxChunks(sampleRate);
    var frames: seq<MonoBlock> := [];
    var fed: seq<MonoBlock> := [];
    var speechStarted := false;
    var speechEnded := false;
    var k := 0;
    while k < maxChunks
      invariant k <= maxChunks
      invariant fed == MonoAll(mic[..k])
      invariant !speechEnded
      invariant speechStarted == StartedBefore(mic, det, k)
      invariant !speechStarted ==> frames == []
      invariant Run(mic, det, stop, maxChunks, Session(frames, speechStarted, false, k))
             == Run(mic, det, stop, maxChunks, Fresh)
    {
      if stop.IsSetAt(k) {
        break;
      }
      var mono := Mono(mic[k]);
      MonoAllSnoc(mic, 0, k);
      assert mic[0..k] == mic[..k] && mic[0..k + 1] == mic[..k + 1];
      fed := fed + [mono];
      var ev := det(fed);
      assert ev == EventAt(mic, det, k);
      StartedStep(mic, det, k);
      if ev.HasStart() {
        speechStarted := true;
      }
      if speechStarted {
        frames := frames + [mono];
      }
      k := k + 1;
      if ev.HasEnd() {
        speechEnded := true;
        break;
      }
    }
    blocksRead := k;
    if !speechStarted || |frames| == 0 {
      result := NoSpeech;
    } else {
      result := Recorded(Clip(Concat(frames), sampleRate));
    }
  }
}

=== FILE: mcp_server.dfy ===
/** The two tools of the conversation server: `set_mode`, which changes the session's
    default processing mode, and the notify/wait gating of `converse`. The session
    settings are the processing settings; the valid modes are the stems of the prompt
    files, given without duplicates. */
module McpServer {
  import opened Maybe
  import opened Text
  import Processing
  import Pipeline

  const SetPrefix: string := "Default mode set to: "
  const UnknownPrefix: string := "Unknown mode: "
  const ValidSeparator: string := ". Valid: "

  datatype Reply = Reply(settings: Processing.Settings, text: string)

  predicate Distinct(xs: seq<string>) {
    forall i, j :: 0 <= i < j < |xs| ==> xs[i] != xs[j]
  }

  /** The valid modes as the rejection message lists them: ascending, comma-separated. */
  function ValidList(validModes: seq<string>): string {
    Join(SortStrings(validModes), ", ")
  }

  /** `set_mode`: a valid mode becomes the default and nothing else changes; any other
      string, the empty one included, leaves the settings as they were and is answered
      with the sorted list of valid modes. */
  function SetMode(settings: Processing.Settings, validModes: seq<string>, mode: string): (r: Reply)
    requires Distinct(validModes)
    ensures mode in validModes ==>
      r.settings == settings.(defaultMode := mode) && r.text == SetPrefix + mode
    ensures mode !in validModes ==>
      r.settings == settings && r.text == UnknownPrefix + mode + ValidSeparator + ValidList(validModes)
  {
    if mode !in validModes then Reply(settings, UnknownPrefix + mode + ValidSeparator + ValidList(validModes))
    else Reply(settings.(defaultMode := mode), SetPrefix + mode)
  }

  /** The list in a rejection holds each valid mode exactly once, in ascending code-point
      order. */
  lemma RejectionListsSortedModes(validModes: seq<string>)
    requires Distinct(validModes)
    ensures Sorted(SortStrings(validModes))
    ensures multiset(SortStrings(validModes)) == multiset(validModes)
    ensures forall m :: m in SortStrings(validModes) <==> m in validModes
  {
    var sorted := SortStrings(validModes);
    forall m ensures m in sorted <==> m in validModes {
      assert m in sorted <==> m in multiset(sorted);
      assert m in validModes <==> m in multiset(validModes);
    }
  }

  /** Every valid mode is named in the rejection of an unknown one. */
  lemma RejectionNamesEveryMode(settings: Processing.Settings, validModes: seq<string>, mode: string)
    requires Distinct(validModes) && mode !in validModes
    ensures forall m :: m in validModes ==> Occurs(m, SetMode(settings, validModes, mode).text)
  {
    RejectionListsSortedModes(validModes);
    var sorted := SortStrings(validModes);
    forall m | m in validModes ensures Occurs(m, SetMode(settings, validModes, mode).text) {
      var k :| 0 <= k < |sorted| && sorted[k] == m;
      JoinContains(sorted, ", ", k);
      OccursInSuffix(m, UnknownPrefix + mode + ValidSeparator, ValidList(validModes));
    }
  }

  /** Where the rejection puts each mode: after the fixed text, the modes appear in
      ascending code-point order, mode `k` of the sorted list after the `k` modes before it
      and `k` separators ", ", with a separator right before every mode but the first. */
  lemma RejectionListsModesInOrder(settings: Processing.Settings, validModes: seq<string>, mode: string, k: nat)
    requires Distinct(validModes) && mode !in validModes && k < |validModes|
    ensures var text := SetMode(settings, validModes, mode).text;
      var sorted := SortStrings(validModes);
      var base := |UnknownPrefix + mode + ValidSeparator| + TotalLength(sorted[..k]);
      && |sorted| == |validModes|
      && OccursAt(sorted[k], text, base + 2 * k)
      && (0 < k ==> OccursAt(", ", text, base + 2 * (k - 1)) && LexLe(sorted[k - 1], sorted[k]))
  {
    var sorted := SortStrings(validModes);
    SortedLength(validModes);
    var lead := UnknownPrefix + mode + ValidSeparator;
    var list := ValidList(validModes);
    assert SetMode(settings, validModes, mode).text == lead + list;
    JoinAt(sorted, ", ", k);
    var start := TotalLength(sorted[..k]);
    OccursAtShift(sorted[k], lead, list, start + k * 2);
    if 0 < k {
      OccursAtShift(", ", lead, list, start + (k - 1) * 2);
      assert Sorted(sorted);
    }
  }

  lemma SortedLength(validModes: seq<string>)
    ensures |SortStrings(validModes)| == |validModes|
  {
    var sorted := SortStrings(validModes);
    assert |multiset(sorted)| == |sorted|;
    assert |multiset(validModes)| == |validModes|;
  }

  /** Setting the same mode twice is the same as setting it once. */
  lemma SetModeIdempotent(settings: Processing.Settings, validModes: seq<string>, mode: string)
    requires Distinct(validModes)
    ensures SetMode(SetMode(settings, validModes, mode).settings, validModes, mode)
         == SetMode(settings, validModes, mode)
  {
  }

  /** After a successful `set_mode(m)`, a transcript that is too long to pass through is
      processed with `m`; a rejected mode leaves the earlier choice in force. */
  lemma SetModeGovernsAutoSelection(settings: Processing.Settings, validModes: seq<string>, mode: string, transcript: string)
    requires Distinct(validModes)
    requires |Words(transcript)| > settings.durchreichenMaxWords
    ensures var r := SetMode(settings, validModes, mode);
      Processing.SelectMode(transcript, None, r.settings)
        == if mode in validModes then mode else settings.defaultMode
  {
  }

  /** What `converse` did, in order. */
  datatype Action = Notified(title: string, body: string) | PipelineInvoked(mode: Option<string>)

  datatype ConverseRun = ConverseRun(outcome: Pipeline.Outcome, actions: seq<Action>)

  /** The bodies of the notifications shown, in order. */
  function Shown(actions: seq<Action>): seq<string> {
    if |actions| == 0 then []
    else (if actions[0].Notified? then [actions[0].body] else []) + Shown(actions[1..])
  }

  /** The modes the pipeline was invoked with, in order. */
  function Invocations(actions: seq<Action>): seq<Option<string>> {
    if |actions| == 0 then []
    else (if actions[0].PipelineInvoked? then [actions[0].mode] else []) + Invocations(actions[1..])
  }

  /** A present, non-empty message. */
  predicate Truthy(message: Option<string>) {
    message.Some? && message.value != ""
  }

  /** `converse`: show a non-empty message first; when not waiting, return "" at once;
      otherwise the answer is whatever the pipeline run gives. `pipeline` is that run's
      outcome. */
  function Converse(message: Option<string>, waitForResponse: bool, mode: Option<string>,
                    pipeline: Pipeline.Outcome): (r: ConverseRun)
    ensures Truthy(message) ==> |r.actions| > 0 && r.actions[0] == Notified(Pipeline.Title, message.value)
    ensures Shown(r.actions) == if Truthy(message) then [message.value] else []
    ensures !waitForResponse ==>
      r.outcome == Pipeline.Returned("") && forall k :: 0 <= k < |r.actions| ==> r.actions[k].Notified?
    ensures waitForResponse ==>
      r.outcome == pipeline && |r.actions| > 0 && r.actions[|r.actions| - 1] == PipelineInvoked(mode)
    ensures Invocations(r.actions) == if waitForResponse then [mode] else []
  {
    var shown := if Truthy(message) then [Notified(Pipeline.Title, message.value)] else [];
    if !waitForResponse then ConverseRun(Pipeline.Returned(""), shown)
    else
      var actions := shown + [PipelineInvoked(mode)];
      assert Shown([PipelineInvoked(mode)]) == [];
      assert Invocations([PipelineInvoked(mode)]) == [mode];
      assert Truthy(message) ==> actions[1..] == [PipelineInvoked(mode)];
      ConverseRun(pipeline, actions)
  }
}

=== FILE: option.dfy ===
/** Python's `X | None` for arguments that may be absent. */
module Maybe {

  datatype Option<+T> = None | Some(value: T)
}

=== FILE: pipeline.dfy ===
/** The outcome policy of `run_pipeline` and `process_file`: how the recording, the
    transcription and the processing outcomes map to the returned text, the clipboard and
    the desktop notifications. Each external call is replaced by the outcome it produced;
    the calls that have effects are recorded, in order, in an effect log. */
module Pipeline {
  import opened Maybe
  import opened Text
  import Capture
  import Processing

  const Title: string := "Babel Tower"

  /** Notifications longer than this are cut when the result is shown. */
  const PreviewLength: nat := 100

  const FallbackNotice: string := "M5 offline \U{2014} Roh-Transkript verwendet"

  datatype Urgency = Low | Normal | Critical

  datatype Effect =
    | Notify(title: string, body: string, urgency: Urgency)
    | CopyToClipboard(text: string)
    | ProcessCall(transcript: string, mode: Option<string>)

  /** What `transcribe` produced: a transcript, `STTError` with its message, or another
      exception (a transport error other than a connection failure or a timeout, or a body
      that is not JSON), which the pipeline does not catch. */
  datatype SttOutcome = Transcribed(text: string) | SttError(message: string) | SttCrash

  /** Exceptions the pipeline lets through: no speech from the recorder, an uncaught
      failure of the transcription, or one of the processing call. */
  datatype Uncaught = NoSpeechError | TranscriptionError | ReplyError

  datatype Outcome = Returned(value: string) | Raised(error: Uncaught)

  datatype PipelineRun = PipelineRun(outcome: Outcome, effects: seq<Effect>)

  function Notifications(effects: seq<Effect>): (n: seq<Effect>)
    ensures |n| <= |effects|
    ensures forall k :: 0 <= k < |n| ==> n[k].Notify?
  {
    if |effects| == 0 then []
    else (if effects[0].Notify? then [effects[0]] else []) + Notifications(effects[1..])
  }

  /** The texts copied to the clipboard, in order. */
  function Copies(effects: seq<Effect>): seq<string> {
    if |effects| == 0 then []
    else (if effects[0].CopyToClipboard? then [effects[0].text] else []) + Copies(effects[1..])
  }

  /** The calls of `process_transcript`, in order. */
  function ProcessCalls(effects: seq<Effect>): seq<Effect> {
    if |effects| == 0 then []
    else (if effects[0].ProcessCall? then [effects[0]] else []) + ProcessCalls(effects[1..])
  }

  lemma {:induction false} LogAppend(a: seq<Effect>, b: seq<Effect>)
    ensures Notifications(a + b) == Notifications(a) + Notifications(b)
    ensures Copies(a + b) == Copies(a) + Copies(b)
    ensures ProcessCalls(a + b) == ProcessCalls(a) + ProcessCalls(b)
  {
    if |a| > 0 {
      assert (a + b)[1..] == a[1..] + b;
      LogAppend(a[1..], b);
    } else {
      assert a + b == b;
    }
  }

  lemma LogOfThree(x: Effect, y: Effect, z: Effect)
    ensures Notifications([x, y, z]) == Notifications([x]) + Notifications([y]) + Notifications([z])
    ensures Copies([x, y, z]) == Copies([x]) + Copies([y]) + Copies([z])
    ensures ProcessCalls([x, y, z]) == ProcessCalls([x]) + ProcessCalls([y]) + ProcessCalls([z])
  {
    assert [x, y, z] == [x] + [y] + [z];
    LogAppend([x] + [y], [z]);
    LogAppend([x], [y]);
  }

  /** Everything after the transcription, shared by both entry points; `announce` is the
      "Verarbeite..." notification that only `run_pipeline` sends. `processed` is what
      `process_transcript` gives for the transcript and the mode. */
  function Deliver(stt: SttOutcome, mode: Option<string>, processed: Processing.Result<string>, announce: bool): (r: PipelineRun)
    ensures r.outcome.Raised? <==>
      stt.SttCrash? || (stt.Transcribed? && stt.text != "" && processed == Processing.Err(Processing.Unhandled))
    ensures r.outcome.Raised? ==> r.outcome.error == if stt.SttCrash? then TranscriptionError else ReplyError
    ensures stt.SttCrash? ==> r.effects == []
    ensures stt.Transcribed? && stt.text != "" && processed.Ok? ==> r.outcome == Returned(processed.value)
    ensures r.outcome.Returned? ==> |r.effects| > 0 && r.effects[|r.effects| - 1].Notify?
  {
    match stt
    case SttCrash => PipelineRun(Raised(TranscriptionError), [])
    case SttError(e) =>
      PipelineRun(Returned("[STT-Fehler: " + e + "]"), [Notify(Title, "STT-Fehler: " + e, Critical)])
    case Transcribed(t) =>
      if t == "" then PipelineRun(Returned(""), [Notify(Title, "Keine Sprache erkannt", Low)])
      else
        var before := (if announce then [Notify(Title, "Verarbeite...", Normal)] else []) + [ProcessCall(t, mode)];
        match processed
        case Ok(v) =>
          PipelineRun(Returned(v), before + [CopyToClipboard(v), Notify(Title, Prefix(v, PreviewLength), Normal)])
        case Err(f) =>
          if f.ProcessingError? then
            PipelineRun(Returned(t), before + [Notify(Title, FallbackNotice, Normal), CopyToClipboard(t),
                                               Notify(Title, Prefix(t, PreviewLength), Normal)])
          else
            PipelineRun(Raised(ReplyError), before)
  }

  /** `run_pipeline`: announce the recording, record (a `NoSpeechError` propagates), announce
      the transcription, then deliver. */
  function RunPipeline(mode: Option<string>, recorded: Capture.CaptureResult, stt: SttOutcome,
                       processed: Processing.Result<string>): (r: PipelineRun)
    ensures recorded.NoSpeech? ==>
      r == PipelineRun(Raised(NoSpeechError), [Notify(Title, "Aufnahme gestartet...", Normal)])
  {
    var start := [Notify(Title, "Aufnahme gestartet...", Normal)];
    match recorded
    case NoSpeech => PipelineRun(Raised(NoSpeechError), start)
    case Recorded(_) =>
      var rest := Deliver(stt, mode, processed, true);
      PipelineRun(rest.outcome, start + [Notify(Title, "Transkribiere...", Normal)] + rest.effects)
  }

  /** `process_file`: the same policy on a transcript of an existing file, without the
      recording and the processing notifications. */
  function ProcessFile(mode: Option<string>, stt: SttOutcome, processed: Processing.Result<string>): (r: PipelineRun)
    ensures stt.Transcribed? && stt.text != "" ==> |r.effects| > 0 && r.effects[0] == ProcessCall(stt.text, mode)
    ensures stt.SttError? || stt == Transcribed("") ==> |r.effects| == 1 && r.effects[0].Notify?
    ensures stt.SttCrash? ==> r == PipelineRun(Raised(TranscriptionError), [])
    ensures stt.SttError? ==>
      r.outcome == Returned("[STT-Fehler: " + stt.message + "]")
      && r.effects == [Notify(Title, "STT-Fehler: " + stt.message, Critical)]
    ensures stt == Transcribed("") ==>
      r.outcome == Returned("") && r.effects == [Notify(Title, "Keine Sprache erkannt", Low)]
    ensures stt.Transcribed? && stt.text != "" && processed.Ok? ==>
      r.outcome == Returned(processed.value) && Copies(r.effects) == [processed.value]
    ensures stt.Transcribed? && stt.text != "" && processed.Err? && processed.failure.ProcessingError? ==>
      r.outcome == Returned(stt.text) && Copies(r.effects) == [stt.text]
    ensures stt.Transcribed? && stt.text != "" && r.outcome.Returned? ==>
      |r.effects| > 0 && r.effects[|r.effects| - 1] == Notify(Title, Prefix(r.outcome.value, PreviewLength), Normal)
  {
    DeliverPolicy(stt, mode, processed, false);
    Deliver(stt, mode, processed, false)
  }

  /** The outcome policy, for every combination of outcomes and for both entry points:
      - an STT failure returns `[STT-Fehler: e]` and neither processes nor copies;
      - an empty transcript returns "" after one low-urgency notice and neither processes
        nor copies;
      - otherwise `process_transcript` is called once, with the transcript and the mode as
        given; on a `ProcessingError` the raw transcript is what is returned and copied;
      - whenever a text is returned after processing, exactly that text is copied, once,
        and the last notification shows its first 100 characters. */
  lemma {:induction false} DeliverPolicy(stt: SttOutcome, mode: Option<string>, processed: Processing.Result<string>, announce: bool)
    ensures var r := Deliver(stt, mode, processed, announce);
      && (stt.SttError? ==>
            r.outcome == Returned("[STT-Fehler: " + stt.message + "]")
            && r.effects == [Notify(Title, "STT-Fehler: " + stt.message, Critical)]
            && ProcessCalls(r.effects) == [] && Copies(r.effects) == [])
      && (stt.SttCrash? ==> r.outcome == Raised(TranscriptionError) && r.effects == [])
      && (stt == Transcribed("") ==>
            r.outcome == Returned("") && r.effects == [Notify(Title, "Keine Sprache erkannt", Low)]
            && ProcessCalls(r.effects) == [] && Copies(r.effects) == [])
      && (stt.Transcribed? && stt.text != "" ==>
            ProcessCalls(r.effects) == [ProcessCall(stt.text, mode)])
      && (stt.Transcribed? && stt.text != "" && processed.Ok? ==>
            r.outcome == Returned(processed.value))
      && (stt.Transcribed? && stt.text != "" && processed.Err? && processed.failure.ProcessingError? ==>
            r.outcome == Returned(stt.text)
            && exists k :: 0 <= k < |r.effects| - 1
                 && r.effects[k] == Notify(Title, FallbackNotice, Normal)
                 && r.effects[k + 1] == CopyToClipboard(stt.text))
      && (stt.Transcribed? && stt.text != "" && r.outcome.Returned? ==>
            && Copies(r.effects) == [r.outcome.value]
            && |r.effects| > 0
            && r.effects[|r.effects| - 1] == Notify(Title, Prefix(r.outcome.value, PreviewLength), Normal))
      && (r.outcome.Raised? ==> (stt.SttCrash? || processed == Processing.Err(Processing.Unhandled)) && Copies(r.effects) == [])
  {
    var r := Deliver(stt, mode, processed, announce);
    match stt
    case SttCrash =>
    case SttError(e) =>
    case Transcribed(t) =>
      if t != "" {
        var announcement := if announce then [Notify(Title, "Verarbeite...", Normal)] else [];
        var before := announcement + [ProcessCall(t, mode)];
        LogAppend(announcement, [ProcessCall(t, mode)]);
        assert ProcessCalls(before) == [ProcessCall(t, mode)];
        assert Copies(before) == [];
        match processed
        case Ok(v) =>
          var after := [CopyToClipboard(v), Notify(Title, Prefix(v, PreviewLength), Normal)];
          LogAppend(before, after);
          assert Copies(after) == [v];
        case Err(f) =>
          if f.ProcessingError? {
            var after := [Notify(Title, FallbackNotice, Normal), CopyToClipboard(t),
                          Notify(Title, Prefix(t, PreviewLength), Normal)];
            LogAppend(before, after);
            LogOfThree(after[0], after[1], after[2]);
            assert Copies(after) == [t];
            assert ProcessCalls(after) == [];
            assert r.effects[|before|] == after[0] && r.effects[|before| + 1] == after[1];
          }
      }
  }

  /** `run_pipeline` keeps the policy of `DeliverPolicy` after its two opening notices, and a
      missing recording stops it before any transcription, processing or copying. */
  lemma RunPipelinePolicy(mode: Option<string>, recorded: Capture.CaptureResult, stt: SttOutcome,
                          processed: Processing.Result<string>)
    ensures var r := RunPipeline(mode, recorded, stt, processed);
      var d := Deliver(stt, mode, processed, true);
      && (recorded.Recorded? ==>
            r.outcome == d.outcome
            && r.effects == [Notify(Title, "Aufnahme gestartet...", Normal), Notify(Title, "Transkribiere...", Normal)] + d.effects
            && Notifications(r.effects)
               == [Notify(Title, "Aufnahme gestartet...", Normal), Notify(Title, "Transkribiere...", Normal)] + Notifications(d.effects)
            && Copies(r.effects) == Copies(d.effects)
            && ProcessCalls(r.effects) == ProcessCalls(d.effects))
      && (recorded.NoSpeech? ==>
            r.outcome == Raised(NoSpeechError) && Copies(r.effects) == [] && ProcessCalls(r.effects) == [])
  {
    var start := [Notify(Title, "Aufnahme gestartet...", Normal)];
    var opening := start + [Notify(Title, "Transkribiere...", Normal)];
    LogAppend(start, [Notify(Title, "Transkribiere...", Normal)]);
    LogAppend(opening, Deliver(stt, mode, processed, true).effects);
  }

  /** A run in which every step succeeds sends exactly four notifications, all titled
      "Babel Tower": recording, transcribing, processing, and the result preview. */
  lemma SuccessfulRunNotifiesFourTimes(mode: Option<string>, clip: Capture.Clip, t: string, v: string)
    requires t != ""
    ensures var r := RunPipeline(mode, Capture.Recorded(clip), Transcribed(t), Processing.Ok(v));
      && |Notifications(r.effects)| == 4
      && forall k :: 0 <= k < 4 ==> Notifications(r.effects)[k].title == Title
  {
    var r := RunPipeline(mode, Capture.Recorded(clip), Transcribed(t), Processing.Ok(v));
    var opening := [Notify(Title, "Aufnahme gestartet...", Normal), Notify(Title, "Transkribiere...", Normal)];
    var before := [Notify(Title, "Verarbeite...", Normal), ProcessCall(t, mode)];
    var after := [CopyToClipboard(v), Notify(Title, Prefix(v, PreviewLength), Normal)];
    assert r.effects == opening + (before + after);
    LogAppend(opening, before + after);
    LogAppend(before, after);
    assert Notifications(opening) == opening;
    assert Notifications(before) == [before[0]];
    assert Notifications(after) == [after[1]];
  }

  /** With a mode whose prompt file is missing, processing fails with `ProcessingError`, so a
      non-empty transcript is returned and copied as it was transcribed. */
  lemma UnknownModeFallsBack(mode: string, clip: Capture.Clip, t: string, settings: Processing.Settings,
                             prompts: map<string, string>, reply: Processing.LlmReply)
    requires t != "" && Processing.PromptFile(mode) !in prompts
    ensures var r := RunPipeline(Some(mode), Capture.Recorded(clip), Transcribed(t),
                                 Processing.ProcessTranscript(t, Some(mode), settings, prompts, reply).result);
      r.outcome == Returned(t) && Copies(r.effects) == [t]
  {
    var processed := Processing.ProcessTranscript(t, Some(mode), settings, prompts, reply).result;
    DeliverPolicy(Transcribed(t), Some(mode), processed, true);
    RunPipelinePolicy(Some(mode), Capture.Recorded(clip), Transcribed(t), processed);
  }
}

=== FILE: processing.dfy ===
/** Transcript post-processing (`process_transcript`, `_load_prompt` and the response
    handling of `_call_llm`): choose a mode, load its prompt, and read the text-generation
    service's reply. The service itself is an abstract reply value; the prompt directory
    is a map from file name to contents. */
module Processing {
  import opened Maybe
  import opened Text

  /** Mode chosen for short transcripts. */
  const PassThroughMode: string := "durchreichen"

  /** The settings fields this step reads. `defaultMode` is the field `set_mode` changes. */
  datatype Settings = Settings(defaultMode: string, durchreichenMaxWords: int, llmUrl: string)

  /** `ProcessingError(message)`; `Unhandled` stands for every other exception the call can
      raise (another transport error, an undecodable body, an empty `choices` list), which
      no caller catches. */
  datatype Failure = ProcessingError(message: string) | Unhandled

  datatype Result<+T> = Ok(value: T) | Err(failure: Failure)

  /** What the chat-completions call produced: a connection failure, a timeout, another
      transport error, a status-200 response whose body is not JSON with a string
      `choices[0].message.content`, or a response with its status code, body text and the
      contents of its choices. */
  datatype LlmReply =
    | Unreachable
    | TimedOut
    | TransportFailure
    | Undecodable
    | Response(status: int, text: string, contents: seq<string>)

  /** The two messages sent to the service. */
  datatype LlmRequest = LlmRequest(systemPrompt: string, userMessage: string)

  /** The result of `process_transcript` and the request it sent, if any. */
  datatype Processed = Processed(result: Result<string>, request: Option<LlmRequest>)

  /** Without an explicit mode, a transcript of at most `durchreichenMaxWords` words (as
      `split()` counts them) passes through, a longer one gets the default mode; an explicit
      mode is used as given. */
  function SelectMode(transcript: string, mode: Option<string>, settings: Settings): (m: string)
    ensures mode.Some? ==> m == mode.value
    ensures mode.None? && |Words(transcript)| <= settings.durchreichenMaxWords ==> m == PassThroughMode
    ensures mode.None? && |Words(transcript)| > settings.durchreichenMaxWords ==> m == settings.defaultMode
  {
    match mode
    case Some(m) => m
    case None =>
      if |Words(transcript)| <= settings.durchreichenMaxWords then PassThroughMode else settings.defaultMode
  }

  /** An empty or whitespace-only transcript counts zero words, so it passes through
      whenever the threshold is not negative. */
  lemma BlankTranscriptPassesThrough(transcript: string, settings: Settings)
    requires AllSpace(transcript) && settings.durchreichenMaxWords >= 0
    ensures SelectMode(transcript, None, settings) == PassThroughMode
  {
    NoWordsIffAllSpace(transcript);
  }

  /** Appending more speech never brings a transcript back under the threshold: once it
      gets the default mode, so does any extension of it. */
  lemma LongerTranscriptKeepsDefault(transcript: string, c: char, more: string, settings: Settings)
    requires IsSpace(c)
    requires |Words(transcript)| > settings.durchreichenMaxWords
    ensures SelectMode(transcript + [c] + more, None, settings) == settings.defaultMode
  {
    WordsAppend(transcript, c, more);
  }

  /** The prompt for mode `m` lives in the file `m.md` of the prompt directory. */
  function PromptFile(mode: string): string {
    mode + ".md"
  }

  const UnknownModePrefix: string := "Unknown mode: "

  /** `_load_prompt`: the prompt file's contents, or `ProcessingError("Unknown mode: m")`. */
  function LoadPrompt(mode: string, prompts: map<string, string>): (r: Result<string>)
    ensures r.Ok? <==> PromptFile(mode) in prompts
    ensures r.Ok? ==> r.value == prompts[PromptFile(mode)]
    ensures r.Err? ==> r.failure.ProcessingError? && UnknownModePrefix <= r.failure.message
  {
    if PromptFile(mode) in prompts then Ok(prompts[PromptFile(mode)])
    else Err(ProcessingError(UnknownModePrefix + mode))
  }

  /** The unknown-mode message names the mode: removing the fixed prefix gives it back. */
  lemma UnknownModeNamesMode(mode: string, prompts: map<string, string>)
    requires PromptFile(mode) !in prompts
    ensures LoadPrompt(mode, prompts).failure.message[|UnknownModePrefix|..] == mode
  {
  }

  const ReturnedPrefix: string := "LLM returned "

  /** The response handling of `_call_llm`. */
  function ReadReply(llmUrl: string, reply: LlmReply): (r: Result<string>)
    ensures reply.Unreachable? ==> r == Err(ProcessingError("LLM unreachable at " + llmUrl))
    ensures reply.TimedOut? ==> r == Err(ProcessingError("LLM request timed out"))
    ensures reply.TransportFailure? || reply.Undecodable? ==> r == Err(Unhandled)
    ensures reply.Response? && reply.status != 200 ==> r.Err? && r.failure.ProcessingError?
    ensures reply.Response? && reply.status == 200 && |reply.contents| == 0 ==> r == Err(Unhandled)
    ensures r.Ok? ==> reply.Response? && reply.status == 200 && |reply.contents| > 0
    ensures r.Ok? ==> |r.value| > 0 ==> !IsSpace(r.value[0]) && !IsSpace(r.value[|r.value| - 1])
  {
    match reply
    case Unreachable => Err(ProcessingError("LLM unreachable at " + llmUrl))
    case TimedOut => Err(ProcessingError("LLM request timed out"))
    case TransportFailure => Err(Unhandled)
    case Undecodable => Err(Unhandled)
    case Response(status, text, contents) =>
      if status != 200 then Err(ProcessingError(ReturnedPrefix + IntToString(status) + ": " + text))
      else if |contents| == 0 then Err(Unhandled)
      else Ok(Strip(contents[0]))
  }

  /** A status other than 200 is reported with the code in the message, right after the
      fixed prefix, written so that it reads back as the same code. */
  lemma StatusInMessage(llmUrl: string, status: int, text: string, contents: seq<string>)
    requires status != 200
    ensures var r := ReadReply(llmUrl, Response(status, text, contents));
      var code := IntToString(status);
      && r.Err? && r.failure.ProcessingError?
      && |ReturnedPrefix| + |code| <= |r.failure.message|
      && ParseInt(r.failure.message[|ReturnedPrefix|..|ReturnedPrefix| + |code|]) == status
  {
    var code := IntToString(status);
    var msg := ReturnedPrefix + code + ": " + text;
    assert msg[|ReturnedPrefix|..|ReturnedPrefix| + |code|] == code;
    IntToStringRoundTrip(status);
  }

  /** The text returned on success is the first choice's content without surrounding
      whitespace: it is that content trimmed at both ends, and trimming it again changes
      nothing. */
  lemma ReplyIsStrippedContent(llmUrl: string, text: string, contents: seq<string>)
    requires |contents| > 0
    ensures var r := ReadReply(llmUrl, Response(200, text, contents));
      && r.Ok?
      && (exists a, b :: 0 <= a <= b <= |contents[0]| && r.value == contents[0][a..b]
            && AllSpace(contents[0][..a]) && AllSpace(contents[0][b..]))
      && Strip(r.value) == r.value
  {
    StripIdempotent(contents[0]);
  }

  /** `process_transcript`: choose the mode, load its prompt (failing before any request when
      the prompt file is missing), send the prompt and the transcript, read the reply. */
  function ProcessTranscript(transcript: string, mode: Option<string>, settings: Settings,
                             prompts: map<string, string>, reply: LlmReply): (p: Processed)
    ensures var m := SelectMode(transcript, mode, settings);
      && (PromptFile(m) !in prompts ==>
            p == Processed(Err(ProcessingError(UnknownModePrefix + m)), None))
      && (PromptFile(m) in prompts ==>
            p.request == Some(LlmRequest(prompts[PromptFile(m)], transcript))
            && p.result == ReadReply(settings.llmUrl, reply))
  {
    var m := SelectMode(transcript, mode, settings);
    match LoadPrompt(m, prompts)
    case Err(f) => Processed(Err(f), None)
    case Ok(prompt) => Processed(ReadReply(settings.llmUrl, reply), Some(LlmRequest(prompt, transcript)))
  }

  /** An explicit mode whose prompt file is missing fails with that mode's name and sends
      nothing, whatever the service would have answered. */
  lemma UnknownExplicitModeSendsNothing(transcript: string, m: string, settings: Settings,
                                        prompts: map<string, string>, reply: LlmReply)
    requires PromptFile(m) !in prompts
    ensures ProcessTranscript(transcript, Some(m), settings, prompts, reply).request == None
    ensures ProcessTranscript(transcript, Some(m), settings, prompts, reply).result
         == Err(ProcessingError(UnknownModePrefix + m))
  {
  }
}

=== FILE: text.dfy ===
/** The parts of Python's `str` that the processing and session code rely on: the
    whitespace test shared by `split()` and `strip()`, word splitting, stripping,
    decimal rendering of an int, code-point ordering with `sorted`, `join` and slicing. */
module Text {

  /** Python's `str.isspace` for one character (the set shared by `split()` and `strip()`). */
  predicate IsSpace(c: char) {
    || c == ' '
    || ('\t' <= c <= '\r')
    || ('\U{1c}' <= c <= '\U{1f}')
    || c == '\U{85}' || c == '\U{a0}' || c == '\U{1680}'
    || ('\U{2000}' <= c <= '\U{200a}')
    || c == '\U{2028}' || c == '\U{2029}' || c == '\U{202f}' || c == '\U{205f}' || c == '\U{3000}'
  }

  /** The whitespace code points of Python 3, listed one by one. */
  const PythonWhitespace: string :=
    "\t\n\U{0b}\U{0c}\r\U{1c}\U{1d}\U{1e}\U{1f} \U{85}\U{a0}\U{1680}"
    + "\U{2000}\U{2001}\U{2002}\U{2003}\U{2004}\U{2005}\U{2006}\U{2007}\U{2008}\U{2009}\U{200a}"
    + "\U{2028}\U{2029}\U{202f}\U{205f}\U{3000}"

  /** The range-based test accepts exactly the 29 listed code points. */
  lemma IsSpaceMatchesList()
    ensures |PythonWhitespace| == 29
    ensures forall c: char :: IsSpace(c) <==> c in PythonWhitespace
  {
  }

  predicate AllSpace(s: string) {
    forall k :: 0 <= k < |s| ==> IsSpace(s[k])
  }

  /** A word as `split()` yields it: non-empty and free of whitespace. */
  predicate IsWord(w: string) {
    |w| > 0 && forall k :: 0 <= k < |w| ==> !IsSpace(w[k])
  }

  /** Number of leading whitespace characters. */
  function LeadingSpaces(s: string): (n: nat)
    ensures n <= |s| && AllSpace(s[..n])
    ensures n < |s| ==> !IsSpace(s[n])
  {
    if |s| == 0 || !IsSpace(s[0]) then 0
    else
      var n := 1 + LeadingSpaces(s[1..]);
      assert s[..n] == [s[0]] + s[1..][..n - 1];
      n
  }

  /** Number of trailing whitespace characters. */
  function TrailingSpaces(s: string): (n: nat)
    ensures n <= |s| && AllSpace(s[|s| - n..])
    ensures n < |s| ==> !IsSpace(s[|s| - n - 1])
  {
    if |s| == 0 || !IsSpace(s[|s| - 1]) then 0
    else
      var t := s[..|s| - 1];
      var m := TrailingSpaces(t);
      assert forall k :: |s| - m - 1 <= k < |s| - 1 ==> s[k] == t[|t| - m..][k - (|t| - m)];
      m + 1
  }

  /** Length of the leading run of non-whitespace characters. */
  function WordLength(s: string): (n: nat)
    ensures n <= |s|
    ensures forall k :: 0 <= k < n ==> !IsSpace(s[k])
    ensures n < |s| ==> IsSpace(s[n])
  {
    if |s| == 0 || IsSpace(s[0]) then 0 else 1 + WordLength(s[1..])
  }

  /** `s.strip()`: `s` with leading and trailing whitespace removed. */
  function Strip(s: string): (r: string)
    ensures exists a, b :: 0 <= a <= b <= |s| && r == s[a..b] && AllSpace(s[..a]) && AllSpace(s[b..])
    ensures |r| > 0 ==> !IsSpace(r[0]) && !IsSpace(r[|r| - 1])
  {
    var a := LeadingSpaces(s);
    var t := s[a..];
    var b := a + |t| - TrailingSpaces(t);
    assert t[..|t| - TrailingSpaces(t)] == s[a..b];
    assert t[|t| - TrailingSpaces(t)..] == s[b..];
    s[a..b]
  }

  /** Stripping twice is stripping once. */
  lemma StripIdempotent(s: string)
    ensures Strip(Strip(s)) == Strip(s)
  {
    var r := Strip(s);
    assert LeadingSpaces(r) == 0;
    if |r| > 0 {
      assert TrailingSpaces(r) == 0;
      assert r[0..|r|] == r;
    }
  }

  /** `s.split()` with no separator: maximal whitespace-free runs, in order. */
  function Words(s: string): (ws: seq<string>)
    ensures forall k :: 0 <= k < |ws| ==> IsWord(ws[k])
    decreases |s|
  {
    var t := s[LeadingSpaces(s)..];
    if |t| == 0 then []
    else
      var n := WordLength(t);
      [t[..n]] + Words(t[n..])
  }

  /** A single word splits into itself; with `WordsAppend` and `NoWordsIffAllSpace` this
      fixes `split()` on every string, word count included. */
  lemma {:induction false} WordsOfWord(w: string)
    requires IsWord(w)
    ensures Words(w) == [w]
  {
    assert LeadingSpaces(w) == 0;
    assert w[0..] == w;
    assert WordLength(w) == |w|;
    assert w[..|w|] == w && w[|w|..] == [];
  }

  /** `split()` yields no word exactly when the string is all whitespace (the empty string
      included). */
  lemma NoWordsIffAllSpace(s: string)
    ensures |Words(s)| == 0 <==> AllSpace(s)
  {
    var a := LeadingSpaces(s);
    if a == |s| {
      assert s[..a] == s;
    } else {
      assert !IsSpace(s[a]);
    }
  }

  lemma LeadingSpacesAppend(a: string, b: string)
    requires !AllSpace(a)
    ensures LeadingSpaces(a + b) == LeadingSpaces(a)
  {
    var n := LeadingSpaces(a);
    assert n < |a|;
    assert (a + b)[..n] == a[..n];
    LeadingSpacesUpTo(a + b, n);
  }

  lemma {:induction false} LeadingSpacesUpTo(s: string, n: nat)
    requires n < |s| && AllSpace(s[..n]) && !IsSpace(s[n])
    ensures LeadingSpaces(s) == n
  {
    if n > 0 {
      assert s[1..][..n - 1] == s[1..n];
      assert s[1..][n - 1] == s[n];
      LeadingSpacesUpTo(s[1..], n - 1);
    }
  }

  lemma {:induction false} WordLengthAppend(a: string, b: string)
    requires WordLength(a) < |a|
    ensures WordLength(a + b) == WordLength(a)
  {
    if |a| > 0 && !IsSpace(a[0]) {
      assert (a + b)[1..] == a[1..] + b;
      WordLengthAppend(a[1..], b);
    }
  }

  lemma {:induction false} LeadingSpacesSkip(a: string, b: string)
    requires AllSpace(a)
    ensures LeadingSpaces(a + b) == |a| + LeadingSpaces(b)
  {
    if |a| > 0 {
      assert (a + b)[0] == a[0];
      assert (a + b)[1..] == a[1..] + b;
      LeadingSpacesSkip(a[1..], b);
    } else {
      assert a + b == b;
    }
  }

  /** Leading whitespace does not change the words. */
  lemma WordsDropLeading(s: string)
    ensures Words(s) == Words(s[LeadingSpaces(s)..])
  {
    var t := s[LeadingSpaces(s)..];
    assert LeadingSpaces(t) == 0;
    assert t[0..] == t;
  }

  /** Splitting two texts joined by a whitespace character gives the words of the first
      followed by the words of the second; so word counts add up. */
  lemma {:induction false} WordsAppend(a: string, c: char, b: string)
    requires IsSpace(c)
    ensures Words(a + [c] + b) == Words(a) + Words(b)
    decreases |a|, 1
  {
    var s := a + [c] + b;
    if AllSpace(a) {
      assert AllSpace(a + [c]);
      assert s == (a + [c]) + b;
      LeadingSpacesSkip(a + [c], b);
      assert s[LeadingSpaces(s)..] == b[LeadingSpaces(b)..];
      WordsDropLeading(s);
      WordsDropLeading(b);
      NoWordsIffAllSpace(a);
    } else {
      var la := LeadingSpaces(a);
      LeadingSpacesAppend(a, [c] + b);
      assert s == a + ([c] + b);
      var t := a[la..];
      assert s[la..] == t + [c] + b;
      WordsDropLeading(s);
      WordsDropLeading(a);
      WordsAppendWord(t, c, b);
    }
  }

  /** One step of `split()` on a text that starts with a word. */
  lemma {:induction false} WordsUnfold(s: string)
    requires |s| > 0 && !IsSpace(s[0])
    ensures Words(s) == [s[..WordLength(s)]] + Words(s[WordLength(s)..])
  {
    assert LeadingSpaces(s) == 0;
    assert s[0..] == s;
  }

  lemma {:induction false} WordsAppendWord(t: string, c: char, b: string)
    requires IsSpace(c) && |t| > 0 && !IsSpace(t[0])
    ensures Words(t + [c] + b) == Words(t) + Words(b)
    decreases |t|, 0
  {
    if WordLength(t) == |t| {
      WordsAppendWholeWord(t, c, b);
    } else {
      var n := WordLength(t);
      assert n > 0 by {
        assert !IsSpace(t[0]);
      }
      var rest := t[n..];
      assert |rest| < |t|;
      WordsAppend(rest, c, b);
      WordsAppendPartialWord(t, c, b);
    }
  }

  lemma {:induction false} WordsAppendPartialWord(t: string, c: char, b: string)
    requires IsSpace(c) && |t| > 0 && !IsSpace(t[0]) && WordLength(t) < |t|
    requires Words(t[WordLength(t)..] + [c] + b) == Words(t[WordLength(t)..]) + Words(b)
    ensures Words(t + [c] + b) == Words(t) + Words(b)
  {
    var n := WordLength(t);
    var rest := t[n..];
    var first, ws, vs := [t[..n]], Words(rest), Words(b);
    calc {
      Words(t + [c] + b);
      { FirstWordUnchanged(t, c, b); }
      first + Words(rest + [c] + b);
      first + (ws + vs);
      (first + ws) + vs;
      { WordsUnfold(t); }
      Words(t) + vs;
    }
  }

  /** When `t` holds more than its first word, appending after it leaves that first word
      in place and splits the remainder. */
  lemma FirstWordUnchanged(t: string, c: char, b: string)
    requires |t| > 0 && !IsSpace(t[0]) && WordLength(t) < |t|
    ensures Words(t + [c] + b) == [t[..WordLength(t)]] + Words(t[WordLength(t)..] + [c] + b)
  {
    var n := WordLength(t);
    var s := t + [c] + b;
    SplitInsideFirst(t, n, c, b);
    WordLengthAppend(t, [c] + b);
    assert WordLength(s) == n;
    WordsUnfold(s);
  }

  lemma {:induction false} WordsAppendWholeWord(t: string, c: char, b: string)
    requires IsSpace(c) && |t| > 0 && WordLength(t) == |t|
    ensures Words(t + [c] + b) == Words(t) + Words(b)
  {
    var s := t + [c] + b;
    WordLengthSpaceAt(t, c);
    WordLengthAppend(t + [c], b);
    SplitAtSeparator(t, c, b);
    var n := WordLength(s);
    assert n == |t|;
    WordsUnfold(s);
    assert Words(s) == [t] + Words([c] + b);
    WordsSpaceFirst(c, b);
    WordsUnfold(t);
    assert t[..|t|] == t;
    assert t[|t|..] == [];
    assert Words(t) == [t];
  }

  lemma SplitAtSeparator(t: string, c: char, b: string)
    ensures (t + [c] + b)[..|t|] == t
    ensures (t + [c] + b)[|t|..] == [c] + b
    ensures (t + [c]) + b == t + [c] + b
  {
  }

  lemma SplitInsideFirst(t: string, n: nat, c: char, b: string)
    requires n <= |t|
    ensures t + ([c] + b) == t + [c] + b
    ensures (t + [c] + b)[..n] == t[..n]
    ensures (t + [c] + b)[n..] == t[n..] + [c] + b
  {
  }

  lemma WordLengthSpaceAt(t: string, c: char)
    requires IsSpace(c) && forall k :: 0 <= k < |t| ==> !IsSpace(t[k])
    ensures WordLength(t + [c]) == |t|
  {
    WordLengthUpTo(t + [c], |t|);
  }

  lemma {:induction false} WordLengthUpTo(s: string, n: nat)
    requires n < |s| && IsSpace(s[n]) && forall k :: 0 <= k < n ==> !IsSpace(s[k])
    ensures WordLength(s) == n
  {
    if n > 0 {
      WordLengthUpTo(s[1..], n - 1);
    }
  }

  lemma WordsSpaceFirst(c: char, b: string)
    requires IsSpace(c)
    ensures Words([c] + b) == Words(b)
  {
    LeadingSpacesSkip([c], b);
  }

  // ---------------------------------------------------------------------------
  // Decimal rendering, as `f"{n}"`.

  function DigitChar(d: nat): char
    requires d < 10
  {
    "0123456789"[d]
  }

  function DigitValue(c: char): int {
    c as int - '0' as int
  }

  function NatToString(n: nat): (s: string)
    ensures |s| > 0
    ensures forall k :: 0 <= k < |s| ==> '0' <= s[k] <= '9'
    ensures |s| > 1 ==> s[0] != '0'
  {
    if n < 10 then [DigitChar(n)] else NatToString(n / 10) + [DigitChar(n % 10)]
  }

  function IntToString(i: int): (s: string)
    ensures |s| > 0
  {
    if i < 0 then "-" + NatToString(-i) else NatToString(i)
  }

  /** Reading a string of decimal digits back as a number. */
  function ParseNat(s: string): int {
    if |s| == 0 then 0 else ParseNat(s[..|s| - 1]) * 10 + DigitValue(s[|s| - 1])
  }

  function ParseInt(s: string): int {
    if |s| > 0 && s[0] == '-' then -ParseNat(s[1..]) else ParseNat(s)
  }

  lemma {:induction false} NatToStringRoundTrip(n: nat)
    ensures ParseNat(NatToString(n)) == n
  {
    if n >= 10 {
      var s := NatToString(n);
      assert s[..|s| - 1] == NatToString(n / 10);
      NatToStringRoundTrip(n / 10);
    }
  }

  /** The rendering of an int reads back as that int, so the rendering is faithful. */
  lemma IntToStringRoundTrip(i: int)
    ensures ParseInt(IntToString(i)) == i
  {
    if i < 0 {
      var digits := NatToString(-i);
      var s := "-" + digits;
      assert s == IntToString(i);
      assert s[0] == '-' && s[1..] == digits;
      NatToStringRoundTrip(-i);
      assert ParseInt(s) == -ParseNat(digits);
    } else {
      var s := NatToString(i);
      assert s[0] != '-';
      NatToStringRoundTrip(i);
    }
  }

  // ---------------------------------------------------------------------------
  // Ordering, sorting and joining.

  /** Python's `<=` on `str`: lexicographic by code point. */
  predicate LexLe(a: string, b: string) {
    |a| == 0 || (|b| > 0 && (a[0] < b[0] || (a[0] == b[0] && LexLe(a[1..], b[1..]))))
  }

  lemma LexLeTotal(a: string, b: string)
    ensures LexLe(a, b) || LexLe(b, a)
  {
  }

  lemma LexLeTransitive(a: string, b: string, c: string)
    requires LexLe(a, b) && LexLe(b, c)
    ensures LexLe(a, c)
  {
  }

  lemma LexLeAntisymmetric(a: string, b: string)
    requires LexLe(a, b) && LexLe(b, a)
    ensures a == b
  {
  }

  predicate Sorted(xs: seq<string>) {
    forall k :: 0 < k < |xs| ==> LexLe(xs[k - 1], xs[k])
  }

  function Insert(x: string, xs: seq<string>): (r: seq<string>)
    requires Sorted(xs)
    ensures Sorted(r)
    ensures multiset(r) == multiset(xs) + multiset{x}
    ensures r[0] == x || (|xs| > 0 && r[0] == xs[0])
  {
    if |xs| == 0 then [x]
    else if LexLe(x, xs[0]) then [x] + xs
    else
      LexLeTotal(x, xs[0]);
      var tail := Insert(x, xs[1..]);
      assert xs == [xs[0]] + xs[1..];
      [xs[0]] + tail
  }

  /** `sorted(...)` on strings: ascending code-point order, same elements. */
  function SortStrings(xs: seq<string>): (r: seq<string>)
    ensures Sorted(r)
    ensures multiset(r) == multiset(xs)
  {
    if |xs| == 0 then []
    else
      assert xs == xs[..|xs| - 1] + [xs[|xs| - 1]];
      Insert(xs[|xs| - 1], SortStrings(xs[..|xs| - 1]))
  }

  /** Sum of the lengths of the strings. */
  function TotalLength(xs: seq<string>): nat {
    if |xs| == 0 then 0 else |xs[0]| + TotalLength(xs[1..])
  }

  /** `w` is a substring of `s`. */
  ghost predicate Occurs(w: string, s: string) {
    exists o :: OccursAt(w, s, o)
  }

  /** `w` is found in `s` at offset `o`. */
  predicate OccursAt(w: string, s: string, o: int) {
    0 <= o <= |s| - |w| && s[o..o + |w|] == w
  }

  /** `sep.join(xs)`: the strings in order with one separator between neighbours. */
  function Join(xs: seq<string>, sep: string): (r: string)
    ensures |xs| == 0 ==> r == ""
    ensures |xs| > 0 ==> xs[0] <= r && |r| == TotalLength(xs) + (|xs| - 1) * |sep|
  {
    if |xs| == 0 then ""
    else if |xs| == 1 then xs[0]
    else xs[0] + sep + Join(xs[1..], sep)
  }

  /** Every joined string appears in the result. */
  lemma {:induction false} JoinContains(xs: seq<string>, sep: string, k: nat)
    requires k < |xs|
    ensures Occurs(xs[k], Join(xs, sep))
  {
    var r := Join(xs, sep);
    if k == 0 {
      assert r[0..|xs[0]|] == xs[0];
      assert OccursAt(xs[0], r, 0);
    } else {
      var rest := Join(xs[1..], sep);
      JoinContains(xs[1..], sep, k - 1);
      var w := xs[k];
      assert xs[1..][k - 1] == w;
      var o :| OccursAt(w, rest, o);
      var head := xs[0] + sep;
      assert r == head + rest;
      assert r[|head| + o..|head| + o + |w|] == w;
      assert OccursAt(w, r, |head| + o);
    }
  }

  /** A substring of the tail is a substring of the whole. */
  lemma OccursInSuffix(w: string, a: string, b: string)
    requires Occurs(w, b)
    ensures Occurs(w, a + b)
  {
    var o :| OccursAt(w, b, o);
    OccursAtShift(w, a, b, o);
  }

  /** Prepending `a` moves every occurrence in `b` right by `|a|`. */
  lemma OccursAtShift(w: string, a: string, b: string, o: int)
    requires OccursAt(w, b, o)
    ensures OccursAt(w, a + b, |a| + o)
  {
    assert (a + b)[|a| + o..|a| + o + |w|] == b[o..o + |w|];
  }

  /** Where the join puts each piece: `xs[k]` starts after the `k` strings before it and `k`
      separators, and for `k > 0` one separator sits right before it. With the length in
      `Join`'s contract this fixes every character of the result. */
  lemma {:induction false} JoinAt(xs: seq<string>, sep: string, k: nat)
    requires k < |xs|
    ensures OccursAt(xs[k], Join(xs, sep), TotalLength(xs[..k]) + k * |sep|)
    ensures 0 < k ==> OccursAt(sep, Join(xs, sep), TotalLength(xs[..k]) + (k - 1) * |sep|)
  {
    var r := Join(xs, sep);
    if k == 0 {
      assert xs[..0] == [];
      assert r[0..|xs[0]|] == xs[0];
    } else {
      var tail := xs[1..];
      var head := xs[0] + sep;
      var rest := Join(tail, sep);
      assert r == head + rest;
      TotalLengthPrefix(xs, k);
      var before := TotalLength(tail[..k - 1]);
      var total := TotalLength(xs[..k]);
      assert total == |xs[0]| + before;
      var gap := (k - 1) * |sep|;
      assert gap + |sep| == k * |sep| by {
        MulStep(k, |sep|);
      }
      JoinAt(tail, sep, k - 1);
      assert tail[k - 1] == xs[k];
      OccursAtShift(xs[k], head, rest, before + gap);
      if k == 1 {
        assert r[|xs[0]|..|xs[0]| + |sep|] == sep;
        assert tail[..0] == [];
        assert OccursAt(sep, r, total + gap);
      } else {
        var gap2 := (k - 2) * |sep|;
        assert gap2 + |sep| == gap by {
          MulStep(k - 1, |sep|);
        }
        OccursAtShift(sep, head, rest, before + gap2);
      }
    }
  }

  lemma MulStep(k: int, n: nat)
    ensures (k - 1) * n + n == k * n
  {
  }

  /** The first `k > 0` strings are the first one and the next `k - 1`. */
  lemma TotalLengthPrefix(xs: seq<string>, k: nat)
    requires 0 < k <= |xs|
    ensures TotalLength(xs[..k]) == |xs[0]| + TotalLength(xs[1..][..k - 1])
  {
    assert xs[..k][1..] == xs[1..][..k - 1];
  }


  /** `s[:n]` for `n >= 0`. */
  function Prefix(s: string, n: nat): (r: string)
    ensures |r| == if |s| <= n then |s| else n
    ensures r <= s
  {
    if |s| <= n then s else s[..n]
  }
}
